=== FILE: README.md ===
# iTrust clinical records: lab-procedure status, workflow predicates and record stores

A Dafny model of three pieces of the iTrust clinical-records code.

1. **The lab-procedure status enum and record** (`LabProcedure`, `LabProcedureStatus`). The enum is a closed five-value datatype with total `ToID`/`ToName`. Its lookups `FromID`/`FromName` are partial and return `None` where Java's `Optional.get` throws. The two `setStatus` overloads return the object's state after the call together with the exception thrown, if any. All other setters share one generic `Get`/`Set` over a field enumeration.
2. **The workflow predicates of `LabProcedureForm`**: `isReassignable`, `isRemovable` and `isLabProcedureCreated`. `Long.parseLong` is modelled exactly on ASCII text (`JavaLong.ParseLong`), together with its inverse `Long.toString`. The controller's `get` is a function parameter.
3. **The prescription and office-visit gateways** (`PrescriptionMySQL`, `OfficeVisitMySQL`) as pure functions over abstract tables:
   - Each table is a `seq` of rows; the drug-code reference table is a map from code to description.
   - Each SQL statement is given its meaning: the inner join, the `WHERE` filters, `ORDER BY endDate DESC`, and keyed `UPDATE`/`DELETE`.
   - `executeUpdate() > 0` becomes the boolean result.
   - The failure of the store on a given call is a parameter `fault: Option<SqlError>`.
   - The office-visit validator, the patient-ID format, the SQL loader and the write statement the loader prepares are unseen. They are fields of a `Collaborators` parameter.

Java `null` is `None` throughout. `long` and `int` are subset types of `int` with their Java ranges. Dates and timestamps are integers with the usual order. Float measurements are opaque bit patterns.

Modules: `Wrappers`, `JavaTypes`, `JavaLong`, `Jdbc`, `LabStatuses`, `LabProcedures`, `LabProcedureForm`, `Prescriptions`, `PrescriptionProperties`, `OfficeVisits`, `OfficeVisitStore`.

Read-only operations return only their answer and no new table. So the form predicates and the gateway queries leave the procedure and the tables unchanged by construction.

There is no status-transition function in the source. `submitReassignment` forwards to the controller without any check. So the model has no transition table, and `SetStatusByID`/`SetStatusByName` accept any known status from any state.

## Model

| member | source | states |
|---|---|---|
| LabStatuses.ToID | iTrust/src/main/edu/ncsu/csc/itrust/model/labProcedure/LabProcedure.java:20-37 | each status's ID is its 1-based position in the declared order PENDING, IN_TRANSIT, RECEIVED, TESTING, COMPLETED |
| LabStatuses.ToName | iTrust/src/main/edu/ncsu/csc/itrust/model/labProcedure/LabProcedure.java:20-33 | each status's display name is the one declared beside its ID: "Pending", "In transit", "Received", "Testing", "Completed" in ID order |
| LabStatuses.FirstWithID | iTrust/src/main/edu/ncsu/csc/itrust/model/labProcedure/LabProcedure.java:46-48 | the stream filter plus `findFirst` returns the first constant with that ID, or nothing exactly when no constant has it |
| LabStatuses.FirstWithName | iTrust/src/main/edu/ncsu/csc/itrust/model/labProcedure/LabProcedure.java:57-59 | the first constant whose name `equals` the text, or nothing exactly when none does |
| LabStatuses.FromID | iTrust/src/main/edu/ncsu/csc/itrust/model/labProcedure/LabProcedure.java:46-48 | lookup by ID succeeds iff 1 <= id <= 5 and then returns the status with that ID; otherwise it fails with no default |
| LabStatuses.FromName | iTrust/src/main/edu/ncsu/csc/itrust/model/labProcedure/LabProcedure.java:57-59 | lookup by name succeeds iff the text is exactly one of the five names, and returns the status so named |
| LabStatuses.Domain | iTrust/src/main/edu/ncsu/csc/itrust/model/labProcedure/LabProcedure.java:20-21 | exactly five statuses, every constant among them |
| LabStatuses.Distinct | iTrust/src/main/edu/ncsu/csc/itrust/model/labProcedure/LabProcedure.java:20-21 | IDs strictly increase in declaration order; names are pairwise distinct; the valid names are exactly the five display names |
| LabStatuses.RoundTrip | iTrust/src/main/edu/ncsu/csc/itrust/model/labProcedure/LabProcedure.java:31-59 | looking up a status's own ID or own name returns that status |
| LabStatuses.NameLookupIsCaseSensitive | iTrust/src/main/edu/ncsu/csc/itrust/model/labProcedure/LabProcedure.java:58 | other capitalisations ("pending", "PENDING", "In Transit") fail |
| LabStatuses.NameLookupIsExact | iTrust/src/main/edu/ncsu/csc/itrust/model/labProcedure/LabProcedure.java:58 | a trailing space and the empty name fail |
| LabProcedures.Get | iTrust/src/main/edu/ncsu/csc/itrust/model/labProcedure/LabProcedure.java:65-135 | each getter returns a value of its field's Java type |
| LabProcedures.Set | iTrust/src/main/edu/ncsu/csc/itrust/model/labProcedure/LabProcedure.java:69-139 | each setter makes its getter return the stored value and changes no other field, the status included |
| LabProcedures.New | iTrust/src/main/edu/ncsu/csc/itrust/model/labProcedure/LabProcedure.java:8-16 | a fresh procedure has null ID, null status and every other reference null; `isRestricted` is false |
| LabProcedures.SetStatusByID | iTrust/src/main/edu/ncsu/csc/itrust/model/labProcedure/LabProcedure.java:109-111 | succeeds iff 1 <= id <= 5, after which the status's ID is `id`; a failed call leaves the object unchanged; no other field ever changes |
| LabProcedures.SetStatusByName | iTrust/src/main/edu/ncsu/csc/itrust/model/labProcedure/LabProcedure.java:113-115 | succeeds iff the name is non-null and one of the five, after which the status has that name; failure leaves the object unchanged |
| LabProcedures.SetStatusRoundTrip | iTrust/src/main/edu/ncsu/csc/itrust/model/labProcedure/LabProcedure.java:109-115 | setting a status by its own ID or name stores exactly that status |
| LabProcedures.TestSetUpProcedure | iTrust/src/test/java/edu/ncsu/csc/itrust/unit/model/labProcedure/LabProcedureMySQLTest.java:45-54 | the test's set-up record, after `setStatus(1L)`, has status PENDING (ID 1) and every getter other than the status returns what the set-up stored |
| LabProcedureForm.IsLabProcedureCreated | iTrust/src/main/edu/ncsu/csc/itrust/controller/labProcedure/LabProcedureForm.java:80-83 | created iff the stored ID is non-null and positive; a procedure fresh from the constructor is not created |
| LabProcedureForm.CreatedIffPositiveID | iTrust/src/main/edu/ncsu/csc/itrust/controller/labProcedure/LabProcedureForm.java:80-83 | a new procedure is not created; after setting an ID it is created iff that ID is non-null and positive |
| LabProcedureForm.IsReassignable | iTrust/src/main/edu/ncsu/csc/itrust/controller/labProcedure/LabProcedureForm.java:85-99 | false when the text does not parse as a `long`; otherwise true iff the loaded status is in {PENDING, IN_TRANSIT, RECEIVED} (a null status is in none) |
| LabProcedureForm.IsRemovable | iTrust/src/main/edu/ncsu/csc/itrust/controller/labProcedure/LabProcedureForm.java:101-114 | false when the text does not parse; otherwise true iff the loaded status is in {IN_TRANSIT, RECEIVED} |
| LabProcedureForm.ConsultsOnlyItsKey | iTrust/src/main/edu/ncsu/csc/itrust/controller/labProcedure/LabProcedureForm.java:86-92 | both predicates depend on the controller only at `idStr`, and not at all when it does not parse |
| LabProcedureForm.RemovableImpliesReassignable | iTrust/src/main/edu/ncsu/csc/itrust/controller/labProcedure/LabProcedureForm.java:96-113 | removable implies reassignable; reassignable but not removable iff the status is PENDING |
| LabProcedureForm.StatusTable | iTrust/src/main/edu/ncsu/csc/itrust/controller/labProcedure/LabProcedureForm.java:94-113 | TESTING, COMPLETED and null are neither; RECEIVED is both |
| LabProcedureForm.MalformedIdNotActionable | iTrust/src/main/edu/ncsu/csc/itrust/controller/labProcedure/LabProcedureForm.java:86-90 | "abc", "" and null give false from both predicates |
| JavaLong.ParseLong | iTrust/src/main/edu/ncsu/csc/itrust/controller/labProcedure/LabProcedureForm.java:87 | `Long.parseLong` accepts only an optional sign followed by one or more digits. The sign fixes the result's sign. A plain or '+'-signed digit string yields its value when that is at most `Long.MAX_VALUE`; a '-'-signed one yields the negated value when its magnitude is at most that of `Long.MIN_VALUE`; anything larger fails |
| JavaLong.NatToDigits | iTrust/src/main/edu/ncsu/csc/itrust/model/officeVisit/OfficeVisitMySQL.java:60 | the decimal digits of n: non-empty, no leading zero, exactly "0" for zero, and denoting n |
| JavaLong.LongToString | iTrust/src/main/edu/ncsu/csc/itrust/model/officeVisit/OfficeVisitMySQL.java:60 | `Long.toString` is canonical: '-' iff the value is negative, then the digits of the magnitude with no leading zero; exactly "0" for zero |
| JavaLong.ParseLongToString | iTrust/src/main/edu/ncsu/csc/itrust/model/officeVisit/OfficeVisitMySQL.java:60 | parsing the printed form of any `long` gives it back |
| JavaLong.ParseLongRejects | iTrust/src/main/edu/ncsu/csc/itrust/controller/labProcedure/LabProcedureForm.java:86-90 | "", "abc", a lone sign, trailing letters and a leading space do not parse |
| JavaLong.ParseLongPlusSign | iTrust/src/main/edu/ncsu/csc/itrust/controller/labProcedure/LabProcedureForm.java:87 | a leading '+' on the digits of any value up to `Long.MAX_VALUE` changes nothing |
| JavaLong.ParseLongOverflow | iTrust/src/main/edu/ncsu/csc/itrust/controller/labProcedure/LabProcedureForm.java:87 | the digits of any value above `Long.MAX_VALUE` fail |
| JavaLong.ParseLongNegative | iTrust/src/main/edu/ncsu/csc/itrust/controller/labProcedure/LabProcedureForm.java:87 | '-' and the digits of n parse as -n exactly when n is at most 2^63, and fail above |
| JavaLong.ParseLongSignedExamples | iTrust/src/main/edu/ncsu/csc/itrust/controller/labProcedure/LabProcedureForm.java:87 | "-0" is 0, "-05" is -5 and "+05" is 5 |
| Prescriptions.Select | iTrust/src/main/edu/ncsu/csc/itrust/model/prescription/PrescriptionMySQL.java:190 | the inner join on `drugCode = code` plus `WHERE`: a joined row is present iff its table row passes the filter and its code is in `ndcodes`, carrying that code's description; each such row is joined as many times as the table holds it, and no other |
| Prescriptions.LoadRecords | iTrust/src/main/edu/ncsu/csc/itrust/model/prescription/PrescriptionMySQL.java:162-175 | one record per result row, in row order, with the row's id, MID, visit, dates and (code, description) |
| Prescriptions.InsertByEnd | iTrust/src/main/edu/ncsu/csc/itrust/model/prescription/PrescriptionMySQL.java:190 | inserting into a list sorted by non-increasing end date keeps it sorted and adds exactly that element |
| Prescriptions.SortByEndDesc | iTrust/src/main/edu/ncsu/csc/itrust/model/prescription/PrescriptionMySQL.java:190 | `ORDER BY endDate DESC` returns a permutation of the rows sorted by non-increasing end date |
| Prescriptions.EndingAfter | iTrust/src/main/edu/ncsu/csc/itrust/model/prescription/PrescriptionMySQL.java:58-65 | fails iff the store fails. Otherwise a record is returned iff some row has that MID, an end date on or after the given date (inclusive) and a joining code, as many times as the table holds that row. Results are ordered by non-increasing end date |
| Prescriptions.ForOfficeVisit | iTrust/src/main/edu/ncsu/csc/itrust/model/prescription/PrescriptionMySQL.java:147-153 | a record is returned iff some row has that office-visit ID and a joining code, as many times as the table holds that row |
| Prescriptions.LoadCounts | iTrust/src/main/edu/ncsu/csc/itrust/model/prescription/PrescriptionMySQL.java:162-175 | loading keeps multiplicities: a joinable row's record occurs as often as its joined row, since distinct rows load as distinct records |
| Prescriptions.LoadedMembers | iTrust/src/main/edu/ncsu/csc/itrust/model/prescription/PrescriptionMySQL.java:162-175 | the records loaded from the selected joined rows are exactly the loaded table rows that pass the filter and join |
| Prescriptions.NewRow | iTrust/src/main/edu/ncsu/csc/itrust/model/prescription/PrescriptionMySQL.java:204-213 | the inserted row, joined with p's own drug, loads back as p under the store's key: the drug code and every other field but the key and the description are written from p |
| Prescriptions.Add | iTrust/src/main/edu/ncsu/csc/itrust/model/prescription/PrescriptionMySQL.java:74-79 | appends one row with the store's key and p's MID, code, dates and visit; returns true; a store failure leaves the table unchanged |
| Prescriptions.Matching | iTrust/src/main/edu/ncsu/csc/itrust/model/prescription/PrescriptionMySQL.java:105 | exactly the number of positions holding that key, so positive iff some row has it |
| Prescriptions.UpdateRows | iTrust/src/main/edu/ncsu/csc/itrust/model/prescription/PrescriptionMySQL.java:116-125 | the row with key p.id takes p's MID, code, dates and visit; keys and all other rows are unchanged, position by position |
| Prescriptions.Update | iTrust/src/main/edu/ncsu/csc/itrust/model/prescription/PrescriptionMySQL.java:102-107 | true iff some row has key p.id; a missing key gives false, not an error |
| Prescriptions.DeleteRows | iTrust/src/main/edu/ncsu/csc/itrust/model/prescription/PrescriptionMySQL.java:134-138 | rows with the key are gone; every other row keeps its multiplicity; the length drops by the number of matches |
| Prescriptions.Remove | iTrust/src/main/edu/ncsu/csc/itrust/model/prescription/PrescriptionMySQL.java:89-94 | deletes by key; true iff a row had the key; a missing key gives false |
| PrescriptionProperties.AddKeepsKeys | iTrust/src/main/edu/ncsu/csc/itrust/model/prescription/PrescriptionMySQL.java:204-213 | an insert under an unused key keeps `id` a key of the table |
| PrescriptionProperties.UpdateKeepsKeys | iTrust/src/main/edu/ncsu/csc/itrust/model/prescription/PrescriptionMySQL.java:116-125 | an update never changes a key, so `id` stays a key |
| PrescriptionProperties.RemoveKeepsKeys | iTrust/src/main/edu/ncsu/csc/itrust/model/prescription/PrescriptionMySQL.java:134-138 | a delete keeps `id` a key and leaves no row with the deleted key |
| PrescriptionProperties.DeleteKeepsKeys | iTrust/src/main/edu/ncsu/csc/itrust/model/prescription/PrescriptionMySQL.java:135 | deleting by key from a table keyed by `id` leaves it keyed |
| PrescriptionProperties.RemoveIgnoresOtherFields | iTrust/src/main/edu/ncsu/csc/itrust/model/prescription/PrescriptionMySQL.java:81-93 | two prescriptions with the same id remove the same rows and give the same answer |
| PrescriptionProperties.AddThenRead | iTrust/src/main/edu/ncsu/csc/itrust/model/prescription/PrescriptionMySQL.java:74-79 | an added prescription with a known code reads back through both queries with the store's key and the reference description |
| PrescriptionProperties.UnknownCodeIsInvisible | iTrust/src/main/edu/ncsu/csc/itrust/model/prescription/PrescriptionMySQL.java:190 | an added prescription whose code is not in `ndcodes` is returned by neither query |
| PrescriptionProperties.UpdateThenRead | iTrust/src/main/edu/ncsu/csc/itrust/model/prescription/PrescriptionMySQL.java:102-107 | updating a stored key returns true and the new fields read back through the office-visit query |
| PrescriptionProperties.EndingAfterExample | iTrust/src/main/edu/ncsu/csc/itrust/model/prescription/PrescriptionMySQL.java:189-194 | as of 2020-03-01, a prescription ending 2020-04-01 is returned and one ending 2020-02-01 is not |
| OfficeVisits.Get | iTrust/src/main/edu/ncsu/csc/itrust/model/officeVisit/OfficeVisit.java:43-285 | each getter returns a value of its field's Java type |
| OfficeVisits.Set | iTrust/src/main/edu/ncsu/csc/itrust/model/officeVisit/OfficeVisit.java:50-293 | each setter makes its getter return the stored value and leaves every other getter's value alone |
| OfficeVisits.New | iTrust/src/main/edu/ncsu/csc/itrust/model/officeVisit/OfficeVisit.java:16-37 | a new visit has `sendBill` true and every other field null, the measurements included |
| OfficeVisits.SendBillSurvives | iTrust/src/main/edu/ncsu/csc/itrust/model/officeVisit/OfficeVisit.java:112-118 | no sequence of setters other than `setSendBill` changes a true `sendBill` |
| OfficeVisits.LastWriteWins | iTrust/src/main/edu/ncsu/csc/itrust/model/officeVisit/OfficeVisit.java:43-293 | a getter returns what its setter last stored, whatever other setters ran afterwards |
| OfficeVisitStore.RowsWhere | iTrust/src/main/edu/ncsu/csc/itrust/model/officeVisit/OfficeVisitMySQL.java:63 | `WHERE` keeps each matching row as many times as the table holds it and no other row; the first kept row is the first matching row of the table |
| OfficeVisitStore.VisitsForPatient | iTrust/src/main/edu/ncsu/csc/itrust/model/officeVisit/OfficeVisitMySQL.java:56-91 | null, without reaching the store, when `Long.toString(patientID)` fails the MID format. Otherwise a store failure is a `DBException` with a storage cause. Otherwise, on a working store, the result is non-null: the loader's list for exactly the rows with that `patientMID`, each as many times as the table holds it |
| OfficeVisitStore.All | iTrust/src/main/edu/ncsu/csc/itrust/model/officeVisit/OfficeVisitMySQL.java:122-145 | a store failure is a storage `DBException`; with a faithful loader the result is every row, in table order |
| OfficeVisitStore.ByID | iTrust/src/main/edu/ncsu/csc/itrust/model/officeVisit/OfficeVisitMySQL.java:148-182 | with a faithful loader: null iff no row has that `visitID`, otherwise the first such row |
| OfficeVisitStore.ValidatedWrite | iTrust/src/main/edu/ncsu/csc/itrust/model/officeVisit/OfficeVisitMySQL.java:93-119 | a rejected visit gives a `DBException` with the validator's cause and an unchanged table; no write statement is issued. Otherwise a store failure is a storage `DBException`. Otherwise the statement runs and the result is `affected > 0` |
| OfficeVisitStore.Add | iTrust/src/main/edu/ncsu/csc/itrust/model/officeVisit/OfficeVisitMySQL.java:93-119 | a rejected visit gives the validator's `DBException` and leaves the table unchanged. A valid visit on a failing store gives a storage `DBException` with the table unchanged. On a working store the insert runs, and the result is true iff it affected a row |
| OfficeVisitStore.Update | iTrust/src/main/edu/ncsu/csc/itrust/model/officeVisit/OfficeVisitMySQL.java:187-212 | the same validate-first gate. A rejected visit gives the validator's `DBException` with the table unchanged; a store failure gives a storage `DBException` with the table unchanged. Otherwise the update runs, and the result is true iff it affected a row |
| OfficeVisitStore.RejectedIssuesNoWrite | iTrust/src/main/edu/ncsu/csc/itrust/model/officeVisit/OfficeVisitMySQL.java:97-101 | for a rejected visit no write statement is issued: `add` and `update` give the validator's exception and leave the table unchanged, whatever fault the store would raise |
| OfficeVisitStore.VisitsForPatientAreTheirRows | iTrust/src/main/edu/ncsu/csc/itrust/model/officeVisit/OfficeVisitMySQL.java:60-70 | with a faithful loader and a well-formed ID, the result is exactly that patient's rows, each as many times as the table holds it |

## Left out

- JNDI data-source lookup, connection acquisition and the closing of connections, statements and result sets are environment plumbing. Each call is modelled as atomic on the table. A storage failure is the `fault` parameter, so a failure while closing, and its masking of an earlier exception, is not modelled.
- Concurrency: concurrent callers, and a write between validation and insert, are not modelled. The source does no locking.
- `submitReassignment`, the form's constructor, `getHttpServletRequest` and `getSelectedLabProcedure`. These forward to an unseen controller or are JSF request plumbing, with no logic of their own.
- `CPTCodeForm` is left out: its add, update and delete are stubs that only print, and the rest is UI state.
- `LabProcedureController`, `OfficeVisitValidator`, `OfficeVisitSQLLoader` (both `loadList` and `loadParameters`) and the `ValidationFormat.NPMID` regex are not part of this model. They are uninterpreted parameters. Lemmas that need the loader to return its rows unchanged say so (`FaithfulLoader`).
- OfficeVisitStore.Add: does not state that an added visit reads back, or that a new visit's `sendBill` is persisted as true, because the insert statement is built by the unseen `loadParameters`.
- OfficeVisitStore.VisitsForPatient: a null `patientID` would throw a `NullPointerException` when unboxed; the model takes a non-null `long`.
- JavaLong.ParseLong: accepts only ASCII digits. Java's `Character.digit` also accepts other Unicode decimal digits.
- Prescriptions.Add: the key the store assigns is a parameter. The model does not describe auto-increment, and it does not model the store rejecting a row, for example through a foreign-key constraint.
- Prescriptions.ForOfficeVisit: the query has no `ORDER BY`, so the store's order is unspecified. The contract states which records come back and how many times each, not their order.
- Prescriptions.EndingAfter: rows with equal end dates come in table order in the model, where the store may use any order. The contract states sortedness, membership and multiplicity, not the order of ties.
- OfficeVisitStore.RowsWhere: states which rows are kept, how many times each, and which comes first, but not that the rest keep table order.
- LabProcedureForm.IsReassignable: when the text parses but `controller.get` returns null, `proc.getStatus()` throws a `NullPointerException` (LabProcedureForm.java:92-94). The model requires the loader to return a procedure for parseable text instead of modelling that exception. The same holds for LabProcedureForm.IsRemovable (LabProcedureForm.java:108-110).
- OfficeVisitStore.ValidatedWrite: `validate` is a pure function of the visit. The source builds its validator with the same data source (OfficeVisitMySQL.java:44, :51), so validation could read the database; the model assumes it does not depend on the tables.
- Prescriptions.EndingAfter: a null `endDate` argument makes `Date.valueOf` throw a `NullPointerException` (PrescriptionMySQL.java:193). The model's dates are integers and cannot be null, so that path is not modelled. The same holds for a null start or end date in `add` (PrescriptionMySQL.java:209-210) and `update` (PrescriptionMySQL.java:120-121).
- Prescriptions.LoadRecords: a NULL `startDate` or `endDate` column makes `rs.getDate(...).toLocalDate()` throw a `NullPointerException` (PrescriptionMySQL.java:167-168). The `Row` type has non-null dates, so that path is not modelled.
- Prescriptions.Update: the model takes `executeUpdate` to report the rows the `WHERE id=?` clause matched. Some drivers report only rows whose values actually changed, so an update that rewrites a row with its own values could report 0 and return false. The source does not show which setting the connection uses.
- The `ndcodes` table is a map, which assumes `code` is its key. Duplicate codes would duplicate joined rows.
- `Prescription.java` and `MedicationBean.java` are not part of this model. The record is taken as the six fields the gateway reads and writes.
- Float clinical measurements are opaque bit patterns; no arithmetic is done on them. SQL date conversion is replaced by integer dates.

=== FILE: java_long.dfy ===
/** `Long.parseLong(String)` and `Long.toString(long)`, on ASCII decimal text. */
module JavaLong {
  import opened Wrappers
  import opened JavaTypes

  predicate IsDigit(c: char) {
    '0' <= c <= '9'
  }

  predicate AllDigits(s: string) {
    forall i :: 0 <= i < |s| ==> IsDigit(s[i])
  }

  function DigitValue(c: char): nat
    requires IsDigit(c)
  {
    (c as int) - ('0' as int)
  }

  function DigitChar(d: nat): (c: char)
    requires d < 10
    ensures IsDigit(c) && DigitValue(c) == d
  {
    (('0' as int) + d) as char
  }

  /** The number a run of decimal digits denotes, most significant first. */
  function DigitsValue(s: string): nat
    requires AllDigits(s)
  {
    if |s| == 0 then 0 else DigitsValue(s[..|s| - 1]) * 10 + DigitValue(s[|s| - 1])
  }

  /** `Long.parseLong(s)`: an optional `+` or `-`, then one or more digits,
      denoting a value in the range of `long`. `None` is the
      `NumberFormatException`. */
  function ParseLong(s: string): (r: Option<Long>)
    ensures r.Some? ==> |s| > 0 && (IsDigit(s[0]) || s[0] == '+' || s[0] == '-')
    ensures r.Some? ==> forall i :: 0 < i < |s| ==> IsDigit(s[i])
    ensures r.Some? && (s[0] == '+' || s[0] == '-') ==> |s| >= 2
    ensures r.Some? && s[0] == '-' ==> r.value <= 0
    ensures r.Some? && s[0] != '-' ==> r.value >= 0
    ensures |s| > 0 && AllDigits(s) && DigitsValue(s) <= MaxLong ==> r == Some(DigitsValue(s))
    ensures |s| > 0 && AllDigits(s) && DigitsValue(s) > MaxLong ==> r.None?
    ensures |s| >= 2 && s[0] == '+' && AllDigits(s[1..]) ==>
              r == (if DigitsValue(s[1..]) <= MaxLong then Some(DigitsValue(s[1..])) else None)
    ensures |s| >= 2 && s[0] == '-' && AllDigits(s[1..]) ==>
              r == (if DigitsValue(s[1..]) <= -MinLong then Some(0 - (DigitsValue(s[1..]) as int)) else None)
  {
    if |s| == 0 then None
    else
      var negative := s[0] == '-';
      var digits := if s[0] == '-' || s[0] == '+' then s[1..] else s;
      if |digits| == 0 || !AllDigits(digits) then None
      else
        var v: int := if negative then 0 - (DigitsValue(digits) as int) else DigitsValue(digits);
        if MinLong <= v <= MaxLong then Some(v) else None
  }

  /** Decimal digits of `n` without leading zeros. */
  function NatToDigits(n: nat): (s: string)
    ensures |s| > 0 && AllDigits(s)
    ensures DigitsValue(s) == n
    ensures s[0] == '0' ==> n == 0
    ensures n == 0 ==> s == "0"
    decreases n
  {
    if n < 10 then [DigitChar(n)]
    else
      var prefix := NatToDigits(n / 10);
      var s := prefix + [DigitChar(n % 10)];
      assert s[..|s| - 1] == prefix;
      s
  }

  /** `Long.toString(n)`: a minus sign for negative values, then the digits
      of the magnitude. */
  function LongToString(n: Long): (s: string)
    ensures |s| > 0
    ensures n < 0 <==> s[0] == '-'
    ensures n >= 0 ==> AllDigits(s) && DigitsValue(s) == n
    ensures n < 0 ==> |s| >= 2 && AllDigits(s[1..]) && DigitsValue(s[1..]) == -(n as int)
    ensures s[0] == '0' ==> n == 0
    ensures n == 0 ==> s == "0"
    ensures n < 0 ==> s[1] != '0'
  {
    if n < 0 then "-" + NatToDigits(-(n as int)) else NatToDigits(n)
  }

  /** Every `long` survives printing and parsing back. */
  lemma ParseLongToString(n: Long)
    ensures ParseLong(LongToString(n)) == Some(n)
  {
    var s := LongToString(n);
    if n < 0 {
      assert s[1..] == NatToDigits(-(n as int));
    } else {
      assert s == NatToDigits(n);
    }
  }

  /** Inputs that are not decimal `long` literals are rejected. */
  lemma ParseLongRejects()
    ensures ParseLong("") == None
    ensures ParseLong("abc") == None
    ensures ParseLong("-") == None
    ensures ParseLong("+") == None
    ensures ParseLong("12a") == None
    ensures ParseLong(" 1") == None
  {
    assert !AllDigits("abc") by { assert !IsDigit("abc"[0]); }
    assert !AllDigits("12a") by { assert !IsDigit("12a"[2]); }
  }

  /** A leading `+` is accepted and changes nothing. */
  lemma ParseLongPlusSign(n: nat)
    requires n <= MaxLong
    ensures ParseLong("+" + NatToDigits(n)) == Some(n)
  {
    var d := NatToDigits(n);
    assert AllDigits(d) && DigitsValue(d) == n;
    assert ("+" + d)[1..] == d;
  }

  /** One past `Long.MAX_VALUE` is rejected without a sign. */
  lemma ParseLongOverflow(n: nat)
    requires n > MaxLong
    ensures ParseLong(NatToDigits(n)) == None
  {
    var d := NatToDigits(n);
    assert AllDigits(d) && DigitsValue(d) == n;
  }

  /** With a minus sign, magnitudes up to that of `Long.MIN_VALUE` are
      accepted and larger ones rejected. */
  lemma ParseLongNegative(n: nat)
    ensures n <= -MinLong ==> ParseLong("-" + NatToDigits(n)) == Some(0 - (n as int))
    ensures n > -MinLong ==> ParseLong("-" + NatToDigits(n)) == None
  {
    var d := NatToDigits(n);
    assert AllDigits(d) && DigitsValue(d) == n;
    assert ("-" + d)[1..] == d;
  }

  /** Signs and leading zeros: "-0" is zero, "-05" is -5, "+05" is 5. */
  lemma ParseLongSignedExamples()
    ensures ParseLong("-0") == Some(0)
    ensures ParseLong("-05") == Some(-5)
    ensures ParseLong("+05") == Some(5)
  {
    assert "-0"[1..] == "0" && "0"[..0] == "";
    assert "-05"[1..] == "05" && "05"[..1] == "0";
    assert "+05"[1..] == "05";
  }
}

=== FILE: java_types.dfy ===
/** The Java value types the records are built from. Integers are unbounded in
    Dafny, so the widths of `long` and `int` are stated as subset types. */
module JavaTypes {
  import opened Wrappers

  const MinLong: int := -0x8000_0000_0000_0000
  const MaxLong: int := 0x7FFF_FFFF_FFFF_FFFF

  /** A Java `long` (or the value of a non-null `Long`). */
  type Long = x: int | MinLong <= x <= MaxLong

  /** A Java `int` (or the value of a non-null `Integer`). */
  type Int32 = x: int | -0x8000_0000 <= x < 0x8000_0000

  /** A Java `float`, kept as its IEEE-754 bit pattern: the model does no
      arithmetic on clinical measurements. */
  datatype Float = Float(bits: bv32)

  /** A date or timestamp (`LocalDate`, `LocalDateTime`, `Timestamp`), as a
      count of ticks with the usual order. */
  type Instant = int

  /** The value held in one field of a record, by its Java type. A boxed field
      may hold null (`None`); a primitive `boolean` always holds `Some`. */
  datatype Value =
    | LongV(l: Option<Long>)
    | IntV(i: Option<Int32>)
    | BoolV(b: Option<bool>)
    | FloatV(f: Option<Float>)
    | StrV(s: Option<string>)
    | TimeV(t: Option<Instant>)
  {
    predicate IsNull() {
      match this
      case LongV(x) => x.None?
      case IntV(x) => x.None?
      case BoolV(x) => x.None?
      case FloatV(x) => x.None?
      case StrV(x) => x.None?
      case TimeV(x) => x.None?
    }
  }

  /** The Java type of a field, which decides which values its setter accepts. */
  datatype Kind = LongK | IntK | BoolK | PrimitiveBoolK | FloatK | StrK | TimeK

  predicate HasKind(v: Value, k: Kind) {
    match k
    case LongK => v.LongV?
    case IntK => v.IntV?
    case BoolK => v.BoolV?
    case PrimitiveBoolK => v.BoolV? && v.b.Some?
    case FloatK => v.FloatV?
    case StrK => v.StrV?
    case TimeK => v.TimeV?
  }
}

=== FILE: jdbc.dfy ===
/** What a gateway call sees of the database driver: a statement either
    fails with an `SQLException` or reports how many rows it affected. */
module Jdbc {
  import opened Wrappers

  /** An `SQLException` raised by the store (connection failure, malformed
      statement, constraint violation); the reason is opaque. */
  datatype SqlError = SqlError(reason: string)

  /** The state of a table after a write call, and what the call returned or
      threw. `result == Success(b)` is the boolean `executeUpdate() > 0`. */
  datatype Write<S, E> = Write(state: S, result: Result<bool, E>)
}

=== FILE: lab_procedure.dfy ===
/** The `LabProcedure` record: nullable fields, plain setters, and the two
    `setStatus` overloads that go through the status lookups. */
module LabProcedures {
  import opened Wrappers
  import opened JavaTypes
  import opened LabStatuses

  datatype LabProcedure = LabProcedure(
    labProcedureID: Option<Long>,
    labTechnicianID: Option<Long>,
    officeVisitID: Option<Long>,
    priority: Option<Int32>,
    isRestricted: bool,
    status: Option<LabStatus>,
    commentary: Option<string>,
    results: Option<string>,
    updatedDate: Option<Instant>)

  /** The fields that have a plain setter. The status has none: it is only
      set through an ID or a name. */
  datatype Field =
    | ProcedureID | TechnicianID | VisitID | Priority | Restricted
    | Commentary | Results | UpdatedDate

  function KindOf(f: Field): Kind {
    match f
    case ProcedureID => LongK
    case TechnicianID => LongK
    case VisitID => LongK
    case Priority => IntK
    case Restricted => PrimitiveBoolK
    case Commentary => StrK
    case Results => StrK
    case UpdatedDate => TimeK
  }

  /** The getter of field `f`. */
  function Get(p: LabProcedure, f: Field): (v: Value)
    ensures HasKind(v, KindOf(f))
  {
    match f
    case ProcedureID => LongV(p.labProcedureID)
    case TechnicianID => LongV(p.labTechnicianID)
    case VisitID => LongV(p.officeVisitID)
    case Priority => IntV(p.priority)
    case Restricted => BoolV(Some(p.isRestricted))
    case Commentary => StrV(p.commentary)
    case Results => StrV(p.results)
    case UpdatedDate => TimeV(p.updatedDate)
  }

  /** The setter of field `f`: its getter then returns `v`, and no other
      field, the status included, changes. */
  function Set(p: LabProcedure, f: Field, v: Value): (r: LabProcedure)
    requires HasKind(v, KindOf(f))
    ensures Get(r, f) == v
    ensures forall g :: g != f ==> Get(r, g) == Get(p, g)
    ensures r.status == p.status
  {
    match f
    case ProcedureID => p.(labProcedureID := v.l)
    case TechnicianID => p.(labTechnicianID := v.l)
    case VisitID => p.(officeVisitID := v.l)
    case Priority => p.(priority := v.i)
    case Restricted => p.(isRestricted := v.b.value)
    case Commentary => p.(commentary := v.s)
    case Results => p.(results := v.s)
    case UpdatedDate => p.(updatedDate := v.t)
  }

  /** `new LabProcedure()`: every reference field null, `isRestricted` false. */
  function New(): (p: LabProcedure)
    ensures p.status.None?
    ensures forall f :: f != Restricted ==> Get(p, f).IsNull()
    ensures Get(p, Restricted) == BoolV(Some(false))
  {
    LabProcedure(None, None, None, None, false, None, None, None, None)
  }

  /** `NoSuchElementException` from `Optional.get` in a status lookup. */
  datatype LookupError = NoSuchElement

  /** The object after a `setStatus` call, and the exception the call threw. */
  datatype Call = Call(state: LabProcedure, thrown: Option<LookupError>)

  /** `setStatus(long id)`. The lookup throws before the assignment, so a
      failed call leaves the object as it was. */
  function SetStatusByID(p: LabProcedure, id: Long): (r: Call)
    ensures r.thrown.None? <==> 1 <= id <= 5
    ensures r.thrown.None? ==> r.state.status.Some? && ToID(r.state.status.value) == id
    ensures r.thrown.Some? ==> r.state == p
    ensures forall f :: Get(r.state, f) == Get(p, f)
  {
    match FromID(id)
    case Some(s) => Call(p.(status := Some(s)), None)
    case None => Call(p, Some(NoSuchElement))
  }

  /** `setStatus(String name)`. A null name equals no constant's name, so it
      fails like any unknown name. */
  function SetStatusByName(p: LabProcedure, name: Option<string>): (r: Call)
    ensures r.thrown.None? <==> name.Some? && name.value in Names
    ensures r.thrown.None? ==> r.state.status.Some? && ToName(r.state.status.value) == name.value
    ensures r.thrown.Some? ==> r.state == p
    ensures forall f :: Get(r.state, f) == Get(p, f)
  {
    if name.None? then Call(p, Some(NoSuchElement))
    else
      match FromName(name.value)
      case Some(s) => Call(p.(status := Some(s)), None)
      case None => Call(p, Some(NoSuchElement))
  }

  /** Setting a status by its own ID or name stores exactly that status. */
  lemma SetStatusRoundTrip(p: LabProcedure, s: LabStatus)
    ensures SetStatusByID(p, ToID(s)) == Call(p.(status := Some(s)), None)
    ensures SetStatusByName(p, Some(ToName(s))) == Call(p.(status := Some(s)), None)
  {
    RoundTrip(s);
  }

  /** The record the lab-procedure store test builds in its set-up: after
      `setStatus(1L)` the status reads back with ID 1, and the other fields
      keep what their setters stored. */
  lemma TestSetUpProcedure()
    ensures var p := TestProcedure();
            SetStatusByID(p, 1).thrown.None? &&
            SetStatusByID(p, 1).state.status == Some(Pending) &&
            Get(SetStatusByID(p, 1).state, Commentary) == StrV(Some("commentary")) &&
            Get(SetStatusByID(p, 1).state, Priority) == IntV(Some(3)) &&
            forall f :: Get(SetStatusByID(p, 1).state, f) == Get(p, f)
  {
  }

  function TestProcedure(): LabProcedure {
    var p := Set(New(), Commentary, StrV(Some("commentary")));
    var p := Set(p, Restricted, BoolV(Some(true)));
    var p := Set(p, ProcedureID, LongV(Some(8)));
    var p := Set(p, TechnicianID, LongV(Some(9)));
    var p := Set(p, VisitID, LongV(Some(10)));
    var p := Set(p, Priority, IntV(Some(3)));
    Set(p, Results, StrV(Some("results!")))
  }
}

=== FILE: lab_procedure_form.dfy ===
/** The workflow predicates of `LabProcedureForm`: whether a lab procedure,
    named by the text of its ID, may be reassigned or removed. */
module LabProcedureForm {
  import opened Wrappers
  import opened JavaTypes
  import opened JavaLong
  import opened LabStatuses
  import opened LabProcedures

  /** `LabProcedureController.get(idStr)`, which this model cannot see: the
      procedure stored under that ID, or `None` for null. */
  type Loader = string -> Option<LabProcedure>

  /** The statuses from which a procedure may be reassigned. */
  const Reassignable: set<LabStatus> := {Pending, InTransit, Received}

  /** The statuses from which a procedure may be removed. */
  const Removable: set<LabStatus> := {InTransit, Received}

  /** `Long.parseLong(idStr)` succeeds; a null string fails. */
  predicate ParsesAsLong(idStr: Option<string>) {
    idStr.Some? && ParseLong(idStr.value).Some?
  }

  /** The status of the procedure the controller loads for `idStr`. */
  function LoadedStatus(idStr: Option<string>, get: Loader): Option<LabStatus>
    requires ParsesAsLong(idStr) && get(idStr.value).Some?
  {
    get(idStr.value).value.status
  }

  /** `isLabProcedureCreated()`: the procedure has a positive ID. A procedure
      fresh from the constructor has none; setting an ID makes it created
      exactly when that ID is positive. */
  function IsLabProcedureCreated(p: LabProcedure): (created: bool)
    ensures created <==> p.labProcedureID.Some? && p.labProcedureID.value > 0
    ensures p == New() ==> !created
  {
    var id := Get(p, ProcedureID).l;
    id.Some? && id.value > 0
  }

  lemma CreatedIffPositiveID(p: LabProcedure, id: Option<Long>)
    ensures !IsLabProcedureCreated(New())
    ensures IsLabProcedureCreated(Set(p, ProcedureID, LongV(id))) <==> id.Some? && id.value > 0
  {
    assert Get(Set(p, ProcedureID, LongV(id)), ProcedureID) == LongV(id);
  }

  /** `isReassignable(idStr)`. Text that is not a `long` gives false before
      the controller is consulted; otherwise the loaded status is compared
      with three constants, and a null status equals none of them. The code
      dereferences the loaded procedure without a null check, so the loader
      must return one for parseable text. */
  function IsReassignable(idStr: Option<string>, get: Loader): (r: bool)
    requires ParsesAsLong(idStr) ==> get(idStr.value).Some?
    ensures !ParsesAsLong(idStr) ==> !r
    ensures ParsesAsLong(idStr) ==>
              (r <==> LoadedStatus(idStr, get).Some? && LoadedStatus(idStr, get).value in Reassignable)
  {
    if !ParsesAsLong(idStr) then false
    else
      var status := get(idStr.value).value.status;
      status == Some(InTransit) || status == Some(Pending) || status == Some(Received)
  }

  /** `isRemovable(idStr)`: the same guard, and two constants. */
  function IsRemovable(idStr: Option<string>, get: Loader): (r: bool)
    requires ParsesAsLong(idStr) ==> get(idStr.value).Some?
    ensures !ParsesAsLong(idStr) ==> !r
    ensures ParsesAsLong(idStr) ==>
              (r <==> LoadedStatus(idStr, get).Some? && LoadedStatus(idStr, get).value in Removable)
  {
    if !ParsesAsLong(idStr) then false
    else
      var status := get(idStr.value).value.status;
      status == Some(InTransit) || status == Some(Received)
  }

  /** Both predicates consult the controller only for `idStr` itself, and not
      at all when it does not parse. */
  lemma ConsultsOnlyItsKey(idStr: Option<string>, get1: Loader, get2: Loader)
    requires ParsesAsLong(idStr) ==> get1(idStr.value).Some? && get2(idStr.value).Some?
    requires ParsesAsLong(idStr) ==> get1(idStr.value) == get2(idStr.value)
    ensures IsReassignable(idStr, get1) == IsReassignable(idStr, get2)
    ensures IsRemovable(idStr, get1) == IsRemovable(idStr, get2)
  {
  }

  /** Removable implies reassignable; PENDING is the one status that is
      reassignable and not removable. */
  lemma RemovableImpliesReassignable(idStr: Option<string>, get: Loader)
    requires ParsesAsLong(idStr) ==> get(idStr.value).Some?
    ensures IsRemovable(idStr, get) ==> IsReassignable(idStr, get)
    ensures IsReassignable(idStr, get) && !IsRemovable(idStr, get) <==>
              ParsesAsLong(idStr) && LoadedStatus(idStr, get) == Some(Pending)
  {
  }

  /** TESTING, COMPLETED and an unset status are neither reassignable nor
      removable; RECEIVED is both. */
  lemma StatusTable(idStr: Option<string>, get: Loader)
    requires ParsesAsLong(idStr) ==> get(idStr.value).Some?
    ensures ParsesAsLong(idStr) && LoadedStatus(idStr, get) in {Some(Testing), Some(Completed), None} ==>
              !IsReassignable(idStr, get) && !IsRemovable(idStr, get)
    ensures ParsesAsLong(idStr) && LoadedStatus(idStr, get) == Some(Received) ==>
              IsReassignable(idStr, get) && IsRemovable(idStr, get)
  {
  }

  /** Non-numeric text, an empty string and null are never actionable. */
  lemma MalformedIdNotActionable(get: Loader)
    ensures !IsReassignable(Some("abc"), get) && !IsRemovable(Some("abc"), get)
    ensures !IsReassignable(Some(""), get) && !IsRemovable(Some(""), get)
    ensures !IsReassignable(None, get) && !IsRemovable(None, get)
  {
    ParseLongRejects();
  }
}

=== FILE: lab_status.dfy ===
/** `LabProcedure.LabProcedureStatus`: the closed set of lab-procedure states,
    each with a storage ID and a display name. */
module LabStatuses {
  import opened Wrappers
  import opened JavaTypes

  datatype LabStatus = Pending | InTransit | Received | Testing | Completed

  /** `values()`: the constants in declaration order. */
  const Values: seq<LabStatus> := [Pending, InTransit, Received, Testing, Completed]

  /** The display names, parallel to `Values`. */
  const DisplayNames: seq<string> := ["Pending", "In transit", "Received", "Testing", "Completed"]

  /** The display names as a set, as `String.equals` compares them
      (case-sensitive). Membership in a set literal keeps the `FromName`
      proofs cheap; `Distinct` proves it holds the same names as
      `DisplayNames`. */
  const Names: set<string> := {"Pending", "In transit", "Received", "Testing", "Completed"}

  /** `getID()`: the ID is the constant's 1-based position in `values()`. */
  function ToID(s: LabStatus): (id: Long)
    ensures 1 <= id <= |Values| && Values[id - 1] == s
  {
    match s
    case Pending => 1
    case InTransit => 2
    case Received => 3
    case Testing => 4
    case Completed => 5
  }

  /** `getName()`: the name declared beside the constant's ID. */
  function ToName(s: LabStatus): (name: string)
    ensures name == DisplayNames[ToID(s) - 1]
    ensures name in Names
  {
    match s
    case Pending => "Pending"
    case InTransit => "In transit"
    case Received => "Received"
    case Testing => "Testing"
    case Completed => "Completed"
  }

  /** `stream().filter(p -> p.getID() == id).findFirst()` over `vs`. */
  function FirstWithID(vs: seq<LabStatus>, id: int): (r: Option<LabStatus>)
    ensures r.None? <==> forall i :: 0 <= i < |vs| ==> ToID(vs[i]) != id
    ensures r.Some? ==> exists k :: 0 <= k < |vs| && vs[k] == r.value && ToID(vs[k]) == id &&
                          forall j :: 0 <= j < k ==> ToID(vs[j]) != id
  {
    if |vs| == 0 then None
    else if ToID(vs[0]) == id then Some(vs[0])
    else
      var r := FirstWithID(vs[1..], id);
      assert forall i :: 0 < i < |vs| ==> vs[i] == vs[1..][i - 1];
      assert r.Some? ==> exists k :: 0 <= k < |vs| && vs[k] == r.value && ToID(vs[k]) == id &&
                           forall j :: 0 <= j < k ==> ToID(vs[j]) != id by {
        if r.Some? {
          var k :| 0 <= k < |vs[1..]| && vs[1..][k] == r.value && ToID(vs[1..][k]) == id &&
                   forall j :: 0 <= j < k ==> ToID(vs[1..][j]) != id;
          assert vs[k + 1] == r.value && forall j :: 0 <= j < k + 1 ==> ToID(vs[j]) != id;
        }
      }
      r
  }

  /** `stream().filter(p -> p.getName().equals(name)).findFirst()` over `vs`. */
  function FirstWithName(vs: seq<LabStatus>, name: string): (r: Option<LabStatus>)
    ensures r.None? <==> forall i :: 0 <= i < |vs| ==> ToName(vs[i]) != name
    ensures r.Some? ==> exists k :: 0 <= k < |vs| && vs[k] == r.value && ToName(vs[k]) == name &&
                          forall j :: 0 <= j < k ==> ToName(vs[j]) != name
  {
    if |vs| == 0 then None
    else if ToName(vs[0]) == name then Some(vs[0])
    else
      var r := FirstWithName(vs[1..], name);
      assert forall i :: 0 < i < |vs| ==> vs[i] == vs[1..][i - 1];
      assert r.Some? ==> exists k :: 0 <= k < |vs| && vs[k] == r.value && ToName(vs[k]) == name &&
                           forall j :: 0 <= j < k ==> ToName(vs[j]) != name by {
        if r.Some? {
          var k :| 0 <= k < |vs[1..]| && vs[1..][k] == r.value && ToName(vs[1..][k]) == name &&
                   forall j :: 0 <= j < k ==> ToName(vs[1..][j]) != name;
          assert vs[k + 1] == r.value && forall j :: 0 <= j < k + 1 ==> ToName(vs[j]) != name;
        }
      }
      r
  }

  /** `getStatusByID(id)`; `None` is the `NoSuchElementException` that
      `Optional.get` throws when no constant carries the ID. */
  function FromID(id: Long): (r: Option<LabStatus>)
    ensures r.Some? <==> 1 <= id <= 5
    ensures r.Some? ==> ToID(r.value) == id
  {
    assert 1 <= id <= 5 ==> ToID(Values[id - 1]) == id;
    FirstWithID(Values, id)
  }

  /** `getStatusByName(name)`; `None` is the `NoSuchElementException`. */
  function FromName(name: string): (r: Option<LabStatus>)
    ensures r.Some? <==> name in Names
    ensures r.Some? ==> ToName(r.value) == name
  {
    var r := FirstWithName(Values, name);
    assert name in Names ==> exists i :: 0 <= i < |Values| && ToName(Values[i]) == name by {
      if name in Names {
        var i := if name == "Pending" then 0 else if name == "In transit" then 1
                 else if name == "Received" then 2 else if name == "Testing" then 3 else 4;
        assert ToName(Values[i]) == name;
      }
    }
    r
  }

  /** The domain is exactly the five constants, declared in lifecycle order. */
  lemma Domain()
    ensures forall s: LabStatus :: s in Values
    ensures |Values| == 5
  {
    forall s: LabStatus
      ensures s in Values
    {
      assert Values[ToID(s) - 1] == s;
    }
  }

  /** IDs strictly increase in declaration order and names are pairwise
      distinct, so each lookup has at most one match. */
  lemma Distinct()
    ensures forall i, j :: 0 <= i < j < |Values| ==> ToID(Values[i]) < ToID(Values[j])
    ensures forall i, j :: 0 <= i < j < |Values| ==> ToName(Values[i]) != ToName(Values[j])
    ensures forall n :: n in Names <==> n in DisplayNames
  {
  }

  /** Looking a constant up by its own ID or by its own name finds it. */
  lemma RoundTrip(s: LabStatus)
    ensures FromID(ToID(s)) == Some(s)
    ensures FromName(ToName(s)) == Some(s)
  {
  }

  /** Name lookup compares case: other capitalisations fail rather than
      default. */
  lemma NameLookupIsCaseSensitive()
    ensures FromName("pending") == None
    ensures FromName("PENDING") == None
    ensures FromName("In Transit") == None
  {
  }

  /** Name lookup is exact: no trimming, and the empty name matches nothing. */
  lemma NameLookupIsExact()
    ensures FromName("Completed ") == None
    ensures FromName("") == None
  {
  }
}

=== FILE: office_visit.dfy ===
/** The `OfficeVisit` record: boxed, independently nullable fields, with
    `sendBill` the one field the constructor sets. */
module OfficeVisits {
  import opened Wrappers
  import opened JavaTypes

  datatype OfficeVisit = OfficeVisit(
    visitID: Option<Long>,
    patientMID: Option<Long>,
    date: Option<Instant>,
    locationID: Option<string>,
    apptTypeID: Option<Long>,
    notes: Option<string>,
    sendBill: Option<bool>,
    height: Option<Float>,
    length: Option<Float>,
    weight: Option<Float>,
    headCircumference: Option<Float>,
    bloodPressure: Option<string>,
    hdl: Option<Int32>,
    triglyceride: Option<Int32>,
    ldl: Option<Int32>,
    householdSmokingStatus: Option<Int32>,
    patientSmokingStatus: Option<Int32>)

  /** One constructor per getter/setter pair. */
  datatype Field =
    | VisitID | PatientMID | Date | LocationID | ApptTypeID | Notes | SendBill
    | Height | Length | Weight | HeadCircumference | BloodPressure
    | HDL | Triglyceride | LDL | HouseholdSmokingStatus | PatientSmokingStatus

  function KindOf(f: Field): Kind {
    match f
    case VisitID => LongK
    case PatientMID => LongK
    case Date => TimeK
    case LocationID => StrK
    case ApptTypeID => LongK
    case Notes => StrK
    case SendBill => BoolK
    case Height => FloatK
    case Length => FloatK
    case Weight => FloatK
    case HeadCircumference => FloatK
    case BloodPressure => StrK
    case HDL => IntK
    case Triglyceride => IntK
    case LDL => IntK
    case HouseholdSmokingStatus => IntK
    case PatientSmokingStatus => IntK
  }

  /** The getter of field `f`. */
  function Get(ov: OfficeVisit, f: Field): (v: Value)
    ensures HasKind(v, KindOf(f))
  {
    match f
    case VisitID => LongV(ov.visitID)
    case PatientMID => LongV(ov.patientMID)
    case Date => TimeV(ov.date)
    case LocationID => StrV(ov.locationID)
    case ApptTypeID => LongV(ov.apptTypeID)
    case Notes => StrV(ov.notes)
    case SendBill => BoolV(ov.sendBill)
    case Height => FloatV(ov.height)
    case Length => FloatV(ov.length)
    case Weight => FloatV(ov.weight)
    case HeadCircumference => FloatV(ov.headCircumference)
    case BloodPressure => StrV(ov.bloodPressure)
    case HDL => IntV(ov.hdl)
    case Triglyceride => IntV(ov.triglyceride)
    case LDL => IntV(ov.ldl)
    case HouseholdSmokingStatus => IntV(ov.householdSmokingStatus)
    case PatientSmokingStatus => IntV(ov.patientSmokingStatus)
  }

  /** The setter of field `f`: its getter then returns `v` and every other
      getter returns what it returned before. */
  function Set(ov: OfficeVisit, f: Field, v: Value): (r: OfficeVisit)
    requires HasKind(v, KindOf(f))
    ensures Get(r, f) == v
    ensures forall g :: g != f ==> Get(r, g) == Get(ov, g)
  {
    match f
    case VisitID => ov.(visitID := v.l)
    case PatientMID => ov.(patientMID := v.l)
    case Date => ov.(date := v.t)
    case LocationID => ov.(locationID := v.s)
    case ApptTypeID => ov.(apptTypeID := v.l)
    case Notes => ov.(notes := v.s)
    case SendBill => ov.(sendBill := v.b)
    case Height => ov.(height := v.f)
    case Length => ov.(length := v.f)
    case Weight => ov.(weight := v.f)
    case HeadCircumference => ov.(headCircumference := v.f)
    case BloodPressure => ov.(bloodPressure := v.s)
    case HDL => ov.(hdl := v.i)
    case Triglyceride => ov.(triglyceride := v.i)
    case LDL => ov.(ldl := v.i)
    case HouseholdSmokingStatus => ov.(householdSmokingStatus := v.i)
    case PatientSmokingStatus => ov.(patientSmokingStatus := v.i)
  }

  /** `new OfficeVisit()`: `sendBill` is true and every other field is null,
      the measurements included (absent, not zero). */
  function New(): (ov: OfficeVisit)
    ensures Get(ov, SendBill) == BoolV(Some(true))
    ensures forall f :: f != SendBill ==> Get(ov, f).IsNull()
  {
    OfficeVisit(None, None, None, None, None, None, Some(true),
                None, None, None, None, None, None, None, None, None, None)
  }

  /** Only `setSendBill` changes `sendBill`: after any sequence of other
      setters on a new visit it still reads true. */
  lemma {:induction false} SendBillSurvives(ov: OfficeVisit, writes: seq<(Field, Value)>)
    requires Get(ov, SendBill) == BoolV(Some(true))
    requires forall k :: 0 <= k < |writes| ==> writes[k].0 != SendBill && HasKind(writes[k].1, KindOf(writes[k].0))
    ensures Get(SetAll(ov, writes), SendBill) == BoolV(Some(true))
    decreases |writes|
  {
    if |writes| > 0 {
      var w := writes[0];
      assert Get(Set(ov, w.0, w.1), SendBill) == Get(ov, SendBill);
      SendBillSurvives(Set(ov, w.0, w.1), writes[1..]);
    }
  }

  /** The setters applied in order. */
  function SetAll(ov: OfficeVisit, writes: seq<(Field, Value)>): OfficeVisit
    requires forall k :: 0 <= k < |writes| ==> HasKind(writes[k].1, KindOf(writes[k].0))
    decreases |writes|
  {
    if |writes| == 0 then ov else SetAll(Set(ov, writes[0].0, writes[0].1), writes[1..])
  }

  /** Each getter returns what its setter last stored, whatever other
      setters ran after it. */
  lemma {:induction false} LastWriteWins(ov: OfficeVisit, f: Field, v: Value, writes: seq<(Field, Value)>)
    requires HasKind(v, KindOf(f))
    requires forall k :: 0 <= k < |writes| ==> writes[k].0 != f && HasKind(writes[k].1, KindOf(writes[k].0))
    ensures Get(SetAll(Set(ov, f, v), writes), f) == v
    decreases |writes|
  {
    if |writes| > 0 {
      var w := writes[0];
      var ov' := Set(Set(ov, f, v), w.0, w.1);
      assert Get(ov', f) == v;
      assert ov' == Set(ov', f, v) by {
        assert forall g :: Get(ov', g) == Get(Set(ov', f, v), g);
      }
      LastWriteWins(ov', f, v, writes[1..]);
    }
  }
}

=== FILE: office_visit_store.dfy ===
/** `OfficeVisitMySQL` over an abstract `officeVisit` table. The validator,
    the patient-ID format and the SQL loader are collaborators this model
    cannot see; they are parameters. */
module OfficeVisitStore {
  import opened Wrappers
  import opened JavaTypes
  import opened JavaLong
  import opened Jdbc
  import opened OfficeVisits

  type Table = seq<OfficeVisit>

  /** The statement `OfficeVisitSQLLoader.loadParameters` prepares (an insert
      when `newInstance`, an update otherwise), run on the table: the table
      after it and the row count `executeUpdate` reports. */
  datatype Executed = Executed(table: Table, affected: nat)

  datatype Collaborators = Collaborators(
    /** `OfficeVisitValidator.validate`: `Some(message)` is the
        `FormValidationException` it throws. */
    validate: OfficeVisit -> Option<string>,
    /** `ValidationFormat.NPMID.getRegex().matcher(text).matches()`. */
    isPatientMID: string -> bool,
    /** `OfficeVisitSQLLoader.loadList` applied to the selected rows. */
    loadList: seq<OfficeVisit> -> seq<OfficeVisit>,
    /** `loadParameters` followed by `executeUpdate`. */
    execute: (Table, OfficeVisit, bool) -> Executed)

  /** What a `DBException` wraps: the validator's complaint or the store's
      `SQLException`. Both surface as the same exception type. */
  datatype Cause = Invalid(message: string) | Storage(error: SqlError)

  datatype DBException = DBException(cause: Cause)

  /** The loader hands back each selected row as it is, in order. */
  ghost predicate FaithfulLoader(c: Collaborators) {
    forall rows :: c.loadList(rows) == rows
  }

  /** The two `WHERE` clauses: `patientMID=?` and `visitID=?`. A null column
      equals nothing. */
  datatype Where = PatientIs(mid: Long) | VisitIs(id: Long)

  predicate Keeps(w: Where, v: OfficeVisit) {
    match w
    case PatientIs(mid) => v.patientMID == Some(mid)
    case VisitIs(id) => v.visitID == Some(id)
  }

  /** The rows a `WHERE` clause selects: each kept row as often as the table
      holds it, and the first kept row first. */
  function RowsWhere(t: Table, w: Where): (rs: Table)
    ensures forall v :: v in rs <==> v in t && Keeps(w, v)
    ensures forall v :: multiset(rs)[v] == if Keeps(w, v) then multiset(t)[v] else 0
    ensures |rs| <= |t|
    ensures |rs| > 0 ==> exists k :: 0 <= k < |t| && t[k] == rs[0] && forall j :: 0 <= j < k ==> !Keeps(w, t[j])
  {
    if |t| == 0 then []
    else
      var rest := RowsWhere(t[1..], w);
      assert t == [t[0]] + t[1..];
      if Keeps(w, t[0]) then [t[0]] + rest
      else
        FirstKeptSkips(t, w, rest);
        rest
  }

  /** When the head of `t` is not kept, the first row kept from its tail is
      also the first row kept from `t`. */
  lemma FirstKeptSkips(t: Table, w: Where, rest: Table)
    requires |t| > 0 && !Keeps(w, t[0])
    requires |rest| > 0 ==> exists k :: 0 <= k < |t[1..]| && t[1..][k] == rest[0] &&
                                        forall j :: 0 <= j < k ==> !Keeps(w, t[1..][j])
    ensures |rest| > 0 ==> exists k :: 0 <= k < |t| && t[k] == rest[0] && forall j :: 0 <= j < k ==> !Keeps(w, t[j])
  {
    if |rest| > 0 {
      var k :| 0 <= k < |t[1..]| && t[1..][k] == rest[0] && forall j :: 0 <= j < k ==> !Keeps(w, t[1..][j]);
      assert forall j :: 0 < j < |t| ==> t[j] == t[1..][j - 1];
      assert t[k + 1] == rest[0] && forall j :: 0 <= j < k + 1 ==> !Keeps(w, t[j]);
    }
  }

  /** `getVisitsForPatient(patientID)`. When `Long.toString(patientID)` does
      not match the patient-ID format the call returns null without touching
      the store; otherwise the loader receives exactly the rows with that
      `patientMID`, each as often as the table holds it. */
  function VisitsForPatient(c: Collaborators, t: Table, patientID: Long, fault: Option<SqlError>)
    : (r: Result<Option<seq<OfficeVisit>>, DBException>)
    ensures !c.isPatientMID(LongToString(patientID)) ==> r == Success(None)
    ensures c.isPatientMID(LongToString(patientID)) ==>
              (r.Failure? <==> fault.Some?) &&
              (r.Failure? ==> r.error == DBException(Storage(fault.value)))
    ensures c.isPatientMID(LongToString(patientID)) && fault.None? ==> r.Success? && r.value.Some?
    ensures r.Success? && r.value.Some? ==> exists rs ::
              r.value.value == c.loadList(rs) &&
              (forall v :: v in rs <==> v in t && v.patientMID == Some(patientID)) &&
              (forall v: OfficeVisit :: multiset(rs)[v] == if v.patientMID == Some(patientID) then multiset(t)[v] else 0)
  {
    if !c.isPatientMID(LongToString(patientID)) then Success(None)
    else if fault.Some? then Failure(DBException(Storage(fault.value)))
    else
      var rows := RowsWhere(t, PatientIs(patientID));
      Success(Some(c.loadList(rows)))
  }

  /** `getAll()`: the loader receives every row of the table, in order. */
  function All(c: Collaborators, t: Table, fault: Option<SqlError>)
    : (r: Result<seq<OfficeVisit>, DBException>)
    ensures r.Failure? <==> fault.Some?
    ensures r.Failure? ==> r.error == DBException(Storage(fault.value))
    ensures FaithfulLoader(c) && r.Success? ==> r.value == t
  {
    if fault.Some? then Failure(DBException(Storage(fault.value)))
    else Success(c.loadList(t))
  }

  /** `getByID(id)`: the first visit the loader returns for the rows with
      that `visitID`, or null when it returns none. */
  function ByID(c: Collaborators, t: Table, id: Long, fault: Option<SqlError>)
    : (r: Result<Option<OfficeVisit>, DBException>)
    ensures r.Failure? <==> fault.Some?
    ensures r.Failure? ==> r.error == DBException(Storage(fault.value))
    ensures FaithfulLoader(c) && r.Success? ==>
              (r.value.None? <==> forall k :: 0 <= k < |t| ==> t[k].visitID != Some(id))
    ensures FaithfulLoader(c) && r.Success? && r.value.Some? ==>
              exists k :: 0 <= k < |t| && t[k] == r.value.value && t[k].visitID == Some(id) &&
                          forall j :: 0 <= j < k ==> t[j].visitID != Some(id)
  {
    if fault.Some? then Failure(DBException(Storage(fault.value)))
    else
      var rows := RowsWhere(t, VisitIs(id));
      var visits := c.loadList(rows);
      assert FaithfulLoader(c) && |rows| == 0 ==> forall k :: 0 <= k < |t| ==> t[k].visitID != Some(id) by {
        if |rows| == 0 {
          forall k | 0 <= k < |t|
            ensures t[k].visitID != Some(id)
          {
            assert t[k] in t;
          }
        }
      }
      assert FaithfulLoader(c) && |rows| > 0 ==> rows[0] in rows && visits == rows;
      if |visits| > 0 then Success(Some(visits[0])) else Success(None)
  }

  /** The validate-then-write path shared by `add` and `update`. The
      validator runs before a connection is taken: for a rejected visit no
      write statement is issued. */
  function ValidatedWrite(c: Collaborators, t: Table, ov: OfficeVisit, newInstance: bool, fault: Option<SqlError>)
    : (r: Write<Table, DBException>)
    ensures c.validate(ov).Some? ==> r == Write(t, Failure(DBException(Invalid(c.validate(ov).value))))
    ensures c.validate(ov).None? && fault.Some? ==> r == Write(t, Failure(DBException(Storage(fault.value))))
    ensures c.validate(ov).None? && fault.None? ==>
              r.state == c.execute(t, ov, newInstance).table &&
              r.result == Success(c.execute(t, ov, newInstance).affected > 0)
  {
    match c.validate(ov)
    case Some(message) => Write(t, Failure(DBException(Invalid(message))))
    case None =>
      if fault.Some? then Write(t, Failure(DBException(Storage(fault.value))))
      else
        var done := c.execute(t, ov, newInstance);
        Write(done.table, Success(done.affected > 0))
  }

  /** `add(ov)`: validate, then insert; true iff the insert affected a row. */
  function Add(c: Collaborators, t: Table, ov: OfficeVisit, fault: Option<SqlError>)
    : (r: Write<Table, DBException>)
    ensures r.result.Failure? && r.result.error.cause.Invalid? ==> c.validate(ov).Some? && r.state == t
    ensures c.validate(ov).Some? ==> r.state == t && r.result.Failure? && r.result.error.cause.Invalid?
    ensures c.validate(ov).None? && fault.Some? ==> r == Write(t, Failure(DBException(Storage(fault.value))))
    ensures c.validate(ov).None? && fault.None? ==>
              r.result.Success? && (r.result.value <==> c.execute(t, ov, true).affected > 0)
    ensures c.validate(ov).None? && fault.None? ==> r.state == c.execute(t, ov, true).table
  {
    ValidatedWrite(c, t, ov, true, fault)
  }

  /** `update(ov)`: validate, then update; true iff the update affected a row. */
  function Update(c: Collaborators, t: Table, ov: OfficeVisit, fault: Option<SqlError>)
    : (r: Write<Table, DBException>)
    ensures r.result.Failure? && r.result.error.cause.Invalid? ==> c.validate(ov).Some? && r.state == t
    ensures c.validate(ov).Some? ==> r.state == t && r.result.Failure? && r.result.error.cause.Invalid?
    ensures c.validate(ov).None? && fault.Some? ==> r == Write(t, Failure(DBException(Storage(fault.value))))
    ensures c.validate(ov).None? && fault.None? ==>
              r.result.Success? && (r.result.value <==> c.execute(t, ov, false).affected > 0)
    ensures c.validate(ov).None? && fault.None? ==> r.state == c.execute(t, ov, false).table
  {
    ValidatedWrite(c, t, ov, false, fault)
  }

  /** A visit the validator rejects gets the same answer whatever the store
      would have done: no write statement is issued, so the table is as it
      was and no storage fault can surface. */
  lemma RejectedIssuesNoWrite(c: Collaborators, t: Table, ov: OfficeVisit, f1: Option<SqlError>, f2: Option<SqlError>)
    requires c.validate(ov).Some?
    ensures Add(c, t, ov, f1) == Add(c, t, ov, f2) == Write(t, Failure(DBException(Invalid(c.validate(ov).value))))
    ensures Update(c, t, ov, f1) == Update(c, t, ov, f2) == Write(t, Failure(DBException(Invalid(c.validate(ov).value))))
  {
  }

  /** With a faithful loader, the visits of a well-formed patient ID are
      exactly that patient's rows, each as often as the table holds it. */
  lemma VisitsForPatientAreTheirRows(c: Collaborators, t: Table, patientID: Long)
    requires FaithfulLoader(c)
    requires c.isPatientMID(LongToString(patientID))
    ensures VisitsForPatient(c, t, patientID, None) == Success(Some(RowsWhere(t, PatientIs(patientID))))
    ensures forall v :: v in VisitsForPatient(c, t, patientID, None).value.value <==>
              v in t && v.patientMID == Some(patientID)
    ensures forall v: OfficeVisit :: multiset(VisitsForPatient(c, t, patientID, None).value.value)[v] ==
              if v.patientMID == Some(patientID) then multiset(t)[v] else 0
  {
  }
}

=== FILE: prescription_properties.dfy ===
/** Properties relating the `PrescriptionMySQL` operations to each other:
    writes keep `id` a key, and what was written reads back through the
    queries exactly when its drug code joins `ndcodes`. */
module PrescriptionProperties {
  import opened Wrappers
  import opened JavaTypes
  import opened Jdbc
  import opened Prescriptions

  /** An insert under a key the store has not used keeps `id` a key. */
  lemma AddKeepsKeys(db: Db, p: Prescription, freshId: Long)
    requires UniqueIds(db.prescriptions)
    requires forall i :: 0 <= i < |db.prescriptions| ==> db.prescriptions[i].id != freshId
    ensures UniqueIds(Add(db, p, freshId, None).state.prescriptions)
  {
    var rows := Add(db, p, freshId, None).state.prescriptions;
    forall i, j | 0 <= i < j < |rows|
      ensures rows[i].id != rows[j].id
    {
      assert rows[i] == db.prescriptions[i];
      if j < |db.prescriptions| {
        assert rows[j] == db.prescriptions[j];
      }
    }
  }

  /** An update changes no key, so it keeps `id` a key. */
  lemma UpdateKeepsKeys(db: Db, p: Prescription)
    requires UniqueIds(db.prescriptions)
    ensures UniqueIds(Update(db, p, None).state.prescriptions)
  {
    var rows := Update(db, p, None).state.prescriptions;
    assert forall i :: 0 <= i < |rows| ==> rows[i].id == db.prescriptions[i].id;
  }

  /** A delete keeps `id` a key and leaves no row with the deleted key. */
  lemma RemoveKeepsKeys(db: Db, p: Prescription)
    requires UniqueIds(db.prescriptions)
    ensures UniqueIds(Remove(db, p, None).state.prescriptions)
    ensures forall row :: row in Remove(db, p, None).state.prescriptions ==> row.id != p.id
  {
    DeleteKeepsKeys(db.prescriptions, p.id);
  }

  lemma {:induction false} DeleteKeepsKeys(rows: seq<Row>, id: Long)
    requires UniqueIds(rows)
    ensures UniqueIds(DeleteRows(rows, id))
    decreases |rows|
  {
    if |rows| > 0 {
      var head, tail := rows[0], rows[1..];
      assert rows == [head] + tail;
      DeleteKeepsKeys(tail, id);
      var rest := DeleteRows(tail, id);
      if head.id != id {
        assert DeleteRows(rows, id) == [head] + rest;
        forall x | x in rest
          ensures x.id != head.id
        {
          assert multiset(tail)[x] == multiset(rest)[x] > 0;
          var k :| 0 <= k < |tail| && tail[k] == x;
          assert rows[k + 1] == x;
        }
        UniqueCons(head, rest);
      } else {
        assert DeleteRows(rows, id) == rest;
      }
    }
  }

  lemma UniqueCons(head: Row, rest: seq<Row>)
    requires UniqueIds(rest)
    requires forall x :: x in rest ==> x.id != head.id
    ensures UniqueIds([head] + rest)
  {
    var r := [head] + rest;
    forall i, j | 0 <= i < j < |r|
      ensures r[i].id != r[j].id
    {
      assert r[j] == rest[j - 1];
      if i > 0 {
        assert r[i] == rest[i - 1];
      } else {
        assert rest[j - 1] in rest;
      }
    }
  }

  /** `remove` reads only the key of its argument. */
  lemma RemoveIgnoresOtherFields(db: Db, p: Prescription, q: Prescription, fault: Option<SqlError>)
    requires p.id == q.id
    ensures Remove(db, p, fault) == Remove(db, q, fault)
  {
  }

  /** A prescription added with a known drug code reads back through the
      office-visit query, and through the patient query for any date up to
      its end date, with the store's key and the reference description. */
  lemma AddThenRead(db: Db, p: Prescription, freshId: Long, asOf: Date)
    requires p.drug.code in db.ndcodes
    ensures var db' := Add(db, p, freshId, None).state;
            var stored := Prescription(freshId, p.patientMID, Medication(p.drug.code, db.ndcodes[p.drug.code]),
                                       p.startDate, p.endDate, p.officeVisitId);
            stored in ForOfficeVisit(db', p.officeVisitId, None).value &&
            (asOf <= p.endDate ==> stored in EndingAfter(db', p.patientMID, asOf, None).value)
  {
    var db' := Add(db, p, freshId, None).state;
    var row := NewRow(p, freshId);
    assert db'.prescriptions[|db.prescriptions|] == row;
    assert row in db'.prescriptions;
    assert Loaded(row, db'.ndcodes) == Prescription(freshId, p.patientMID,
      Medication(p.drug.code, db.ndcodes[p.drug.code]), p.startDate, p.endDate, p.officeVisitId);
  }

  /** A prescription whose drug code is not in `ndcodes` is stored but never
      read back: the inner join drops it from both queries. */
  lemma UnknownCodeIsInvisible(db: Db, p: Prescription, freshId: Long, ov: Long, mid: Long, asOf: Date)
    requires p.drug.code !in db.ndcodes
    requires forall i :: 0 <= i < |db.prescriptions| ==> db.prescriptions[i].id != freshId
    ensures var db' := Add(db, p, freshId, None).state;
            (forall q :: q in ForOfficeVisit(db', ov, None).value ==> q.id != freshId) &&
            (forall q :: q in EndingAfter(db', mid, asOf, None).value ==> q.id != freshId)
  {
    var db' := Add(db, p, freshId, None).state;
    var rows := db'.prescriptions;
    forall row | row in rows && row.drugCode in db'.ndcodes
      ensures row.id != freshId
    {
      var k :| 0 <= k < |rows| && rows[k] == row;
      if k < |db.prescriptions| {
        assert db.prescriptions[k] == row;
      }
    }
  }

  /** An update of a stored key reads back through the office-visit query
      with the new fields, when its drug code is known. */
  lemma UpdateThenRead(db: Db, p: Prescription)
    requires p.drug.code in db.ndcodes
    requires exists i :: 0 <= i < |db.prescriptions| && db.prescriptions[i].id == p.id
    ensures Update(db, p, None).result == Success(true)
    ensures p.(drug := Medication(p.drug.code, db.ndcodes[p.drug.code]))
              in ForOfficeVisit(Update(db, p, None).state, p.officeVisitId, None).value
  {
    var i :| 0 <= i < |db.prescriptions| && db.prescriptions[i].id == p.id;
    var rows := Update(db, p, None).state.prescriptions;
    assert rows[i] == NewRow(p, p.id);
    assert rows[i] in rows;
  }

  /** The emergency-record query as of 2020-03-01 keeps a prescription ending
      2020-04-01 and drops one that ended 2020-02-01 (dates written as
      yyyymmdd numbers, which order like the dates). */
  lemma EndingAfterExample()
    ensures var codes := map["A" := "Aspirin"];
            var early := Row(1, 42, "A", 20200101, 20200201, 7);
            var late := Row(2, 42, "A", 20200101, 20200401, 7);
            EndingAfter(Db([early, late], codes), 42, 20200301, None)
              == Success([Prescription(2, 42, Medication("A", "Aspirin"), 20200101, 20200401, 7)])
  {
    var codes := map["A" := "Aspirin"];
    var early := Row(1, 42, "A", 20200101, 20200201, 7);
    var late := Row(2, 42, "A", 20200101, 20200401, 7);
    var rows := [early, late];
    assert rows[1..] == [late];
    var j := JoinedRow(late, "A", "Aspirin");
    assert Select([late], codes, PatientEndingAfter(42, 20200301)) == [j] by {
      assert [late][1..] == [];
    }
    assert Select(rows, codes, PatientEndingAfter(42, 20200301)) == [j];
    assert SortByEndDesc([j]) == [j] by {
      assert [j][1..] == [];
    }
    assert LoadRecords([j]) == [Prescription(2, 42, Medication("A", "Aspirin"), 20200101, 20200401, 7)];
  }
}

=== FILE: prescriptions.dfy ===
/** `PrescriptionMySQL` over an abstract database: the `prescription` table
    as a sequence of rows and the `ndcodes` reference table as a map from
    drug code to description. Each statement is given its SQL meaning. */
module Prescriptions {
  import opened Wrappers
  import opened JavaTypes
  import opened Jdbc

  type Date = Instant

  /** `MedicationBean(code, description)`. */
  datatype Medication = Medication(code: string, description: string)

  /** The `Prescription` record the gateway reads and writes. */
  datatype Prescription = Prescription(
    id: Long,
    patientMID: Long,
    drug: Medication,
    startDate: Date,
    endDate: Date,
    officeVisitId: Long)

  /** A row of the `prescription` table. */
  datatype Row = Row(
    id: Long,
    patientMID: Long,
    drugCode: string,
    startDate: Date,
    endDate: Date,
    officeVisitId: Long)

  datatype Db = Db(prescriptions: seq<Row>, ndcodes: map<string, string>)

  /** `id` is the table's key. */
  ghost predicate UniqueIds(rows: seq<Row>) {
    forall i, j :: 0 <= i < j < |rows| ==> rows[i].id != rows[j].id
  }

  /** A row of `SELECT * FROM prescription, ndcodes`: the prescription's
      columns and the joined `code` and `description`. */
  datatype JoinedRow = JoinedRow(row: Row, code: string, description: string)

  /** The two `WHERE` clauses besides the join condition. */
  datatype Where =
    | PatientEndingAfter(mid: Long, date: Date)   // patientMID=? AND endDate>=?
    | OfficeVisitIs(visit: Long)                  // officeVisitId=?

  predicate Keeps(w: Where, r: Row) {
    match w
    case PatientEndingAfter(mid, d) => r.patientMID == mid && r.endDate >= d
    case OfficeVisitIs(ov) => r.officeVisitId == ov
  }

  /** A joined row that the inner join on `drugCode = code` produces from `r`. */
  predicate JoinOf(j: JoinedRow, r: Row, codes: map<string, string>) {
    j.row == r && r.drugCode in codes && j.code == r.drugCode && j.description == codes[r.drugCode]
  }

  /** The joined row the inner join on `drugCode = code` produces from `r`. */
  function Joined(r: Row, codes: map<string, string>): (j: JoinedRow)
    requires r.drugCode in codes
    ensures JoinOf(j, r, codes)
  {
    JoinedRow(r, r.drugCode, codes[r.drugCode])
  }

  /** The inner join and the `WHERE` clause: one joined row for each kept
      row whose drug code is in `codes`, as often as the table holds it. */
  function Select(rows: seq<Row>, codes: map<string, string>, w: Where): (js: seq<JoinedRow>)
    ensures forall j :: j in js <==> j.row in rows && Keeps(w, j.row) && JoinOf(j, j.row, codes)
    ensures forall x: Row :: x.drugCode in codes ==>
              multiset(js)[Joined(x, codes)] == if Keeps(w, x) then multiset(rows)[x] else 0
    ensures |js| <= |rows|
  {
    if |rows| == 0 then []
    else
      var r := rows[0];
      var rest := Select(rows[1..], codes, w);
      assert forall x :: x in rows <==> x == r || x in rows[1..];
      assert rows == [r] + rows[1..];
      if r.drugCode in codes && Keeps(w, r) then [Joined(r, codes)] + rest
      else rest
  }

  /** `loadRecords(rs)`: one `Prescription` per result row, in row order,
      built from the row's `id`, `patientMID`, `officeVisitId`, dates and the
      joined `(code, description)`. */
  function LoadRecords(js: seq<JoinedRow>): (ps: seq<Prescription>)
    ensures |ps| == |js|
    ensures forall i :: 0 <= i < |js| ==>
              ps[i].id == js[i].row.id && ps[i].patientMID == js[i].row.patientMID &&
              ps[i].officeVisitId == js[i].row.officeVisitId &&
              ps[i].startDate == js[i].row.startDate && ps[i].endDate == js[i].row.endDate &&
              ps[i].drug == Medication(js[i].code, js[i].description)
  {
    seq(|js|, i requires 0 <= i < |js| => Load(js[i]))
  }

  function Load(j: JoinedRow): Prescription {
    Prescription(j.row.id, j.row.patientMID, Medication(j.code, j.description),
                 j.row.startDate, j.row.endDate, j.row.officeVisitId)
  }

  /** The record a table row reads back as, once joined with its drug code. */
  function Loaded(r: Row, codes: map<string, string>): Prescription
    requires r.drugCode in codes
  {
    Load(Joined(r, codes))
  }

  /** Loading the joined rows of a table keeps how often each row occurs:
      distinct rows load as distinct records. */
  lemma {:induction false} LoadCounts(js: seq<JoinedRow>, codes: map<string, string>)
    requires forall j :: j in js ==> JoinOf(j, j.row, codes)
    ensures forall x: Row :: x.drugCode in codes ==>
              multiset(LoadRecords(js))[Loaded(x, codes)] == multiset(js)[Joined(x, codes)]
    decreases |js|
  {
    if |js| > 0 {
      var head, tail := js[0], js[1..];
      assert js == [head] + tail;
      assert head in js;
      assert head == Joined(head.row, codes);
      LoadCounts(tail, codes);
      LoadRecordsCons(js);
      forall x: Row | x.drugCode in codes
        ensures multiset(LoadRecords(js))[Loaded(x, codes)] == multiset(js)[Joined(x, codes)]
      {
        LoadedInjective(head.row, x, codes);
      }
    }
  }

  lemma LoadRecordsCons(js: seq<JoinedRow>)
    requires |js| > 0
    ensures LoadRecords(js) == [Load(js[0])] + LoadRecords(js[1..])
  {
  }

  /** Two rows with joinable drug codes load as the same record only if they
      are the same row. */
  lemma LoadedInjective(a: Row, b: Row, codes: map<string, string>)
    requires a.drugCode in codes && b.drugCode in codes
    ensures Loaded(a, codes) == Loaded(b, codes) <==> a == b
  {
  }

  ghost predicate SortedByEndDesc(js: seq<JoinedRow>) {
    forall i, j :: 0 <= i < j < |js| ==> js[i].row.endDate >= js[j].row.endDate
  }

  /** Inserts `x` into a list ordered by non-increasing `endDate`, before the
      first element it does not follow. */
  function InsertByEnd(x: JoinedRow, js: seq<JoinedRow>): (r: seq<JoinedRow>)
    requires SortedByEndDesc(js)
    ensures SortedByEndDesc(r)
    ensures multiset(r) == multiset(js) + multiset{x}
  {
    if |js| == 0 || x.row.endDate >= js[0].row.endDate then
      SortedCons(x, js);
      [x] + js
    else
      var head, tail := js[0], js[1..];
      SortedTail(js);
      var rest := InsertByEnd(x, tail);
      InsertedBelowHead(x, js, rest);
      SortedCons(head, rest);
      assert js == [head] + tail;
      [head] + rest
  }

  lemma SortedTail(js: seq<JoinedRow>)
    requires |js| > 0 && SortedByEndDesc(js)
    ensures SortedByEndDesc(js[1..])
  {
    var tail := js[1..];
    forall i, j | 0 <= i < j < |tail|
      ensures tail[i].row.endDate >= tail[j].row.endDate
    {
      assert tail[i] == js[i + 1] && tail[j] == js[j + 1];
    }
  }

  /** Every element of `x` inserted into the tail of `js` ends no later than
      the head of `js`, when `x` itself ends earlier. */
  lemma InsertedBelowHead(x: JoinedRow, js: seq<JoinedRow>, rest: seq<JoinedRow>)
    requires |js| > 0 && SortedByEndDesc(js) && x.row.endDate < js[0].row.endDate
    requires multiset(rest) == multiset(js[1..]) + multiset{x}
    ensures forall y :: y in rest ==> y.row.endDate <= js[0].row.endDate
  {
    forall y | y in rest
      ensures y.row.endDate <= js[0].row.endDate
    {
      assert y in multiset(rest);
      if y != x {
        assert y in multiset(js[1..]);
        var k :| 0 <= k < |js[1..]| && js[1..][k] == y;
        assert js[k + 1] == y;
      }
    }
  }

  /** Adding an element that ends no earlier than all of a sorted list in
      front keeps it sorted. */
  lemma SortedCons(head: JoinedRow, rest: seq<JoinedRow>)
    requires SortedByEndDesc(rest)
    requires |rest| > 0 ==> rest[0].row.endDate <= head.row.endDate
    ensures SortedByEndDesc([head] + rest)
  {
    var r := [head] + rest;
    forall i, j | 0 <= i < j < |r|
      ensures r[i].row.endDate >= r[j].row.endDate
    {
      assert r[j] == rest[j - 1];
      if i > 0 {
        assert r[i] == rest[i - 1];
      } else if j > 1 {
        assert rest[0].row.endDate >= rest[j - 1].row.endDate;
      }
    }
  }

  /** `ORDER BY endDate DESC`: a permutation of `js` ordered by non-increasing
      end date. Rows with equal end dates keep table order here; the store
      may return them in any order. */
  function SortByEndDesc(js: seq<JoinedRow>): (r: seq<JoinedRow>)
    ensures SortedByEndDesc(r)
    ensures multiset(r) == multiset(js)
  {
    if |js| == 0 then []
    else
      assert js == [js[0]] + js[1..];
      InsertByEnd(js[0], SortByEndDesc(js[1..]))
  }

  /** `getPrescriptionsForPatientEndingAfter(mid, endDate)`: exactly the
      records of the patient's prescriptions ending on or after the date
      whose drug code is in `ndcodes`, each as often as the table holds it,
      latest end date first. */
  function EndingAfter(db: Db, mid: Long, endDate: Date, fault: Option<SqlError>)
    : (r: Result<seq<Prescription>, SqlError>)
    ensures r.Failure? <==> fault.Some?
    ensures r.Success? ==> forall p :: p in r.value <==>
              exists row :: row in db.prescriptions && row.patientMID == mid && row.endDate >= endDate &&
                            row.drugCode in db.ndcodes && p == Loaded(row, db.ndcodes)
    ensures r.Success? ==> forall x: Row :: x.drugCode in db.ndcodes ==>
              multiset(r.value)[Loaded(x, db.ndcodes)] ==
                if x.patientMID == mid && x.endDate >= endDate then multiset(db.prescriptions)[x] else 0
    ensures r.Success? ==> forall i, j :: 0 <= i < j < |r.value| ==> r.value[i].endDate >= r.value[j].endDate
  {
    if fault.Some? then Failure(fault.value)
    else
      var selected := Select(db.prescriptions, db.ndcodes, PatientEndingAfter(mid, endDate));
      var sorted := SortByEndDesc(selected);
      SameMembers(sorted, selected);
      LoadedMembers(sorted, db.prescriptions, db.ndcodes, PatientEndingAfter(mid, endDate));
      LoadCounts(sorted, db.ndcodes);
      Success(LoadRecords(sorted))
  }

  /** `getPrescriptionsForOfficeVisit(officeVisitId)`: exactly the records of
      the visit's prescriptions whose drug code is in `ndcodes`, each as
      often as the table holds it. */
  function ForOfficeVisit(db: Db, officeVisitId: Long, fault: Option<SqlError>)
    : (r: Result<seq<Prescription>, SqlError>)
    ensures r.Failure? <==> fault.Some?
    ensures r.Success? ==> forall p :: p in r.value <==>
              exists row :: row in db.prescriptions && row.officeVisitId == officeVisitId &&
                            row.drugCode in db.ndcodes && p == Loaded(row, db.ndcodes)
    ensures r.Success? ==> forall x: Row :: x.drugCode in db.ndcodes ==>
              multiset(r.value)[Loaded(x, db.ndcodes)] ==
                if x.officeVisitId == officeVisitId then multiset(db.prescriptions)[x] else 0
  {
    if fault.Some? then Failure(fault.value)
    else
      var selected := Select(db.prescriptions, db.ndcodes, OfficeVisitIs(officeVisitId));
      LoadedMembers(selected, db.prescriptions, db.ndcodes, OfficeVisitIs(officeVisitId));
      LoadCounts(selected, db.ndcodes);
      Success(LoadRecords(selected))
  }

  /** Permutations have the same members. */
  lemma SameMembers(a: seq<JoinedRow>, b: seq<JoinedRow>)
    requires multiset(a) == multiset(b)
    ensures forall j :: j in a <==> j in b
  {
    forall j
      ensures j in a <==> j in b
    {
      assert j in a <==> j in multiset(a);
      assert j in b <==> j in multiset(b);
    }
  }

  /** The records loaded from rows holding exactly the selected joined rows
      are exactly the loaded selected table rows. */
  lemma LoadedMembers(js: seq<JoinedRow>, rows: seq<Row>, codes: map<string, string>, w: Where)
    requires forall j :: j in js <==> j.row in rows && Keeps(w, j.row) && JoinOf(j, j.row, codes)
    ensures forall p :: p in LoadRecords(js) <==>
              exists row :: row in rows && Keeps(w, row) && row.drugCode in codes && p == Loaded(row, codes)
  {
    var ps := LoadRecords(js);
    forall p
      ensures p in ps <==> exists row :: row in rows && Keeps(w, row) && row.drugCode in codes && p == Loaded(row, codes)
    {
      if p in ps {
        var i :| 0 <= i < |ps| && ps[i] == p;
        var j := js[i];
        assert j in js;
        assert p == Loaded(j.row, codes);
      }
      if exists row :: row in rows && Keeps(w, row) && row.drugCode in codes && p == Loaded(row, codes) {
        var row :| row in rows && Keeps(w, row) && row.drugCode in codes && p == Loaded(row, codes);
        var j := Joined(row, codes);
        assert j in js;
        var i :| 0 <= i < |js| && js[i] == j;
        assert ps[i] == p;
      }
    }
  }

  /** The row `INSERT INTO prescription(patientMID, drugCode, startDate,
      endDate, officeVisitId)` writes for `p`, under the key `id` the store
      assigns: joined with `p`'s own drug, it loads back as `p` under that
      key. */
  function NewRow(p: Prescription, id: Long): (r: Row)
    ensures r.drugCode == p.drug.code
    ensures Load(JoinedRow(r, p.drug.code, p.drug.description)) == p.(id := id)
  {
    Row(id, p.patientMID, p.drug.code, p.startDate, p.endDate, p.officeVisitId)
  }

  /** `add(p)`: one row is appended holding `p`'s five non-key fields and the
      key `freshId` the store chooses; the insert affects one row, so the
      call returns true. The description in `p` is not written. */
  function Add(db: Db, p: Prescription, freshId: Long, fault: Option<SqlError>)
    : (r: Write<Db, SqlError>)
    ensures r.result.Failure? <==> fault.Some?
    ensures r.result.Failure? ==> r.state == db
    ensures r.result.Success? ==> r.result.value
    ensures r.result.Success? ==> r.state.ndcodes == db.ndcodes
    ensures r.result.Success? ==> |r.state.prescriptions| == |db.prescriptions| + 1
    ensures r.result.Success? ==> r.state.prescriptions[..|db.prescriptions|] == db.prescriptions
    ensures r.result.Success? ==> var added := r.state.prescriptions[|db.prescriptions|];
              added.id == freshId && added.patientMID == p.patientMID && added.drugCode == p.drug.code &&
              added.startDate == p.startDate && added.endDate == p.endDate &&
              added.officeVisitId == p.officeVisitId
  {
    if fault.Some? then Write(db, Failure(fault.value))
    else
      var rows := db.prescriptions + [NewRow(p, freshId)];
      assert rows[..|db.prescriptions|] == db.prescriptions;
      Write(db.(prescriptions := rows), Success(true))
  }

  /** The number of rows whose key is `id`: what `executeUpdate` reports for
      a statement `... WHERE id=?`. */
  function Matching(rows: seq<Row>, id: Long): (n: nat)
    ensures n == |set i | 0 <= i < |rows| && rows[i].id == id|
    ensures n <= |rows|
    ensures n > 0 <==> exists i :: 0 <= i < |rows| && rows[i].id == id
  {
    if |rows| == 0 then 0
    else
      var last := |rows| - 1;
      assert forall i :: 0 <= i < last ==> rows[i] == rows[..last][i];
      MatchingIndicesSnoc(rows, id);
      Matching(rows[..last], id) + (if rows[last].id == id then 1 else 0)
  }

  /** The positions of key `id` in `rows` are its positions before the last
      row and, if the last row has it, the last position. */
  lemma MatchingIndicesSnoc(rows: seq<Row>, id: Long)
    requires |rows| > 0
    ensures var last := |rows| - 1;
            |set i | 0 <= i < |rows| && rows[i].id == id| ==
            |set i | 0 <= i < last && rows[..last][i].id == id| + (if rows[last].id == id then 1 else 0)
  {
    var last := |rows| - 1;
    var all := set i | 0 <= i < |rows| && rows[i].id == id;
    var before := set i | 0 <= i < last && rows[..last][i].id == id;
    var at: set<int> := if rows[last].id == id then {last} else {};
    assert all == before + at;
    assert before !! at;
  }

  /** Counting from the front agrees with counting from the back. */
  lemma {:induction false} MatchingCons(rows: seq<Row>, id: Long)
    requires |rows| > 0
    ensures Matching(rows, id) == (if rows[0].id == id then 1 else 0) + Matching(rows[1..], id)
    decreases |rows|
  {
    if |rows| > 1 {
      var last := |rows| - 1;
      assert rows[..last][1..] == rows[1..][..last - 1];
      MatchingCons(rows[..last], id);
    }
  }

  /** `UPDATE prescription SET patientMID=?, drugCode=?, startDate=?,
      endDate=?, officeVisitId=? WHERE id=?` on `rows`. */
  function UpdateRows(rows: seq<Row>, p: Prescription): (r: seq<Row>)
    ensures |r| == |rows|
    ensures forall i :: 0 <= i < |rows| ==> r[i].id == rows[i].id
    ensures forall i :: 0 <= i < |rows| && rows[i].id != p.id ==> r[i] == rows[i]
    ensures forall i :: 0 <= i < |rows| && rows[i].id == p.id ==>
              r[i].patientMID == p.patientMID && r[i].drugCode == p.drug.code &&
              r[i].startDate == p.startDate && r[i].endDate == p.endDate &&
              r[i].officeVisitId == p.officeVisitId
  {
    if |rows| == 0 then []
    else
      var head := if rows[0].id == p.id then NewRow(p, rows[0].id) else rows[0];
      var rest := UpdateRows(rows[1..], p);
      assert forall i :: 0 < i < |rows| ==> rows[i] == rows[1..][i - 1] && ([head] + rest)[i] == rest[i - 1];
      [head] + rest
  }

  /** `update(p)`: the row keyed by `p.id` takes `p`'s five other fields; its
      key and every other row stay as they were. True iff a row has that key;
      a missing key gives false, not an exception. */
  function Update(db: Db, p: Prescription, fault: Option<SqlError>): (r: Write<Db, SqlError>)
    ensures r.result.Failure? <==> fault.Some?
    ensures r.result.Failure? ==> r.state == db
    ensures r.result.Success? ==>
              (r.result.value <==> exists i :: 0 <= i < |db.prescriptions| && db.prescriptions[i].id == p.id)
    ensures r.result.Success? ==> r.state.ndcodes == db.ndcodes
    ensures r.result.Success? ==> r.state.prescriptions == UpdateRows(db.prescriptions, p)
  {
    if fault.Some? then Write(db, Failure(fault.value))
    else Write(db.(prescriptions := UpdateRows(db.prescriptions, p)), Success(Matching(db.prescriptions, p.id) > 0))
  }

  /** `DELETE FROM prescription WHERE id=?` on `rows`: the rows keyed by `id`
      are gone and every other row keeps its number of occurrences. */
  function DeleteRows(rows: seq<Row>, id: Long): (r: seq<Row>)
    ensures forall x :: x in r ==> x.id != id
    ensures forall x: Row :: x.id != id ==> multiset(r)[x] == multiset(rows)[x]
    ensures |r| == |rows| - Matching(rows, id)
  {
    if |rows| == 0 then []
    else
      var rest := DeleteRows(rows[1..], id);
      assert rows == [rows[0]] + rows[1..];
      MatchingCons(rows, id);
      if rows[0].id == id then rest else [rows[0]] + rest
  }

  /** `remove(p)`: deletes by `p.id` alone, ignoring `p`'s other fields.
      True iff a row was deleted; a missing key gives false. */
  function Remove(db: Db, p: Prescription, fault: Option<SqlError>): (r: Write<Db, SqlError>)
    ensures r.result.Failure? <==> fault.Some?
    ensures r.result.Failure? ==> r.state == db
    ensures r.result.Success? ==>
              (r.result.value <==> exists i :: 0 <= i < |db.prescriptions| && db.prescriptions[i].id == p.id)
    ensures r.result.Success? ==> r.state.ndcodes == db.ndcodes
    ensures r.result.Success? ==> r.state.prescriptions == DeleteRows(db.prescriptions, p.id)
  {
    if fault.Some? then Write(db, Failure(fault.value))
    else
      var rows := DeleteRows(db.prescriptions, p.id);
      Write(db.(prescriptions := rows), Success(|db.prescriptions| - |rows| > 0))
  }
}

=== FILE: wrappers.dfy ===
/** `Option` stands for a Java reference that may be null, `Result` for a
    call that either returns or throws. */
module Wrappers {

  datatype Option<+T> = None | Some(value: T)

  datatype Result<+R, +E> = Success(value: R) | Failure(error: E)
}
